=== FILE: README.md ===
# Tank simulator and controller — a Dafny model

The repository is a two-script Modbus/TCP demonstration. `Slave.py` simulates
a water tank: every second it reads the pump and valve coils, moves the level
stored in holding register 0 by +5 (pump on) and −3 (valve open), clamps it
to [0, 1000] and logs "Tank Empty" or "Tank Full" once on reaching 0 or 1000;
"Tank Half Full" at 500 is logged on every other tick while the level stays
there. `Master.py` is the controller: every two seconds it
reads one key from the operator (`q a p v f d t`), polls the level and the
two coils, runs the "Activation A" latch, decides the pump (override, else
auto with a 300/700 hysteresis band, else hold) and the valve (override
only), and writes any coil that must change. The `t` key sends a fixed
12-byte Modbus frame; when a socket exists and the send and the drain of the
reply succeed, that iteration's poll is skipped, and otherwise the error is
logged and the iteration polls as usual. A failed or short read
ends the controller loop.

The model lifts these step functions out of their I/O loops:

| module | file | models |
|---|---|---|
| `Wrappers` | wrappers.dfy | `Option`, Python's `None`-or-value |
| `RegisterStore` | store.dfy | the 20-coil, 20-register data store and its atomic reads and writes |
| `Tank` | tank.dfy | one simulator tick: level update and the threshold `if/elif` chain |
| `Commands` | commands.dfy | the operator keys acting on `auto_control`, the two overrides and `exit_flag` |
| `Activation` | activation.dfy | the Activation-A latch |
| `Decision` | decision.dfy | the pump target and the two optional coil writes |
| `Master` | master.dfy | one controller iteration: key, test-send skip, poll, fail-stop, latch, writes |
| `Probe` | probe.dfy | the diagnostic frame as a MODBUS TCP request, with encoder and decoder |
| `Plant` | plant.dfy | both scripts interleaved in any order over the shared store |

Inputs that come from outside — the key pressed, whether the test frame was
sent and its reply drained, whether the reads succeeded and what they returned — are parameters of
the step functions. A controller iteration and a simulator tick are each one
atomic event in `Plant`.

Three behaviours of the code that are easy to misread:

- The latch deactivates on the fifth poll counting the activating one (the
  timer is set to 5 and decremented in the same iteration), not five polls
  after activation.
- "Tank Half Full" is not reported once per visit to 500: with
  `last_report == 'half'` at 500 the `half` branch is skipped and the reset
  branch clears `last_report`, so the report recurs on every other tick.
- The iteration in which `q` is pressed still polls, decides and writes; the
  exit flag is only looked at when the loop comes round again.

## Model

| member | source | states |
|---|---|---|
| Tank.Delta | Slave.py:47 | +5 with the pump alone, −3 with the valve alone, +2 with both; the change is zero exactly with both actuators off, positive exactly with the pump on, negative exactly with only the valve open, and within [−3, +5] |
| Tank.Clamp | Slave.py:48 | the result lies in [0, 1000], equals an in-range argument, and is the nearer bound otherwise |
| Tank.Report | Slave.py:54-65 | a report is emitted exactly when `last_report` changes to a threshold; that report's level is the new level; at 0 and 1000 `last_report` becomes empty/full, at 500 it alternates between half and none, elsewhere in (0, 1000) it becomes none |
| Tank.TankStep | Slave.py:41-65 | the new level is clamp(level + 5·pump − 3·valve) and lies in [0, 1000]; both actuators off keep the level, both on raise it by 2 until 1000; pump alone and valve alone move it by +5 and −3 with clamping; emission happens exactly on a change of `last_report` |
| Tank.SlaveTick | Slave.py:41-49 | a tick rewrites only holding register 0, with the clamped new level, and leaves every coil and every other register as it was |
| Tank.Emissions | Slave.py:40-65 | n simulator iterations with the actuators held fixed produce n report slots, the first being the first tick's report |
| Tank.BoundaryReportedOnce | Slave.py:55-63 | while the level stays at 0 (pump off) or 1000 (pump on), "Tank Empty" / "Tank Full" is emitted at most once, on the first tick, and not at all if it was already the last report |
| Tank.HalfFullAlternates | Slave.py:58-65 | held at 500 with both actuators off, "Tank Half Full" is emitted on alternate ticks, starting on the first tick unless `last_report` was already half |
| Tank.FirstTickFromInitial | Slave.py:17-60 | from the initial store (level 500, coils off) and `last_report = None`, the first tick keeps 500 and emits "Tank Half Full" |
| RegisterStore.Initial | Slave.py:17-22 | the store starts with 20 coils all off, register 0 at 500 and the other 19 registers at 0 |
| RegisterStore.ReadCoils | Slave.py:41 | reading `count` coils from `start` returns exactly that many values, each the stored coil at its address; the controller's `read_coils(0, count=2)` (Master.py:122) is the same read |
| RegisterStore.ReadRegisters | Slave.py:44 | reading `count` holding registers from `start` returns exactly that many values, each the stored register at its address; the controller's `read_holding_registers(0, count=1)` (Master.py:121) is the same read |
| RegisterStore.WriteCoil | Master.py:160-165 | a coil write sets that coil and leaves every other coil and all registers as they were |
| RegisterStore.WriteRegister | Slave.py:49 | a register write sets that register and leaves every other register and all coils as they were |
| Commands.ApplyKey | Master.py:68-91 | `q` only sets the exit flag; `a` toggles auto, clearing the pump override exactly when auto turns on; `p` forces auto off and makes the pump override ON unless it was ON; `v` does the same to the valve override and leaves auto alone; `f` and `d` force auto off with (ON, closed) and (OFF, open); any other key changes nothing; every key keeps "auto ⇒ no pump override" and never clears a set valve override |
| Commands.KeysPreserveInv | Master.py:31-91 | over any key sequence from a state where auto implies no pump override (such as the initial state), that implication still holds |
| Commands.ValveOverrideSticks | Master.py:79-91 | once the valve override is set, no key sequence resets it to none |
| Commands.PumpOverrideTogglesBack | Master.py:75-78 | pressing `p` twice restores a set pump override, whatever the valve override |
| Commands.ValveOverrideTogglesBack | Master.py:79-81 | pressing `v` twice restores a set valve override, whatever the pump override |
| Activation.LatchStep | Master.py:134-144 | an inactive latch activates on a level in [500, 520] with 4 ticks left after this one; an inactive latch outside the window stays as it is; an active latch counts down one per tick regardless of level and turns off as its count reaches 0; the invariant (active with 1..4 left) or (inactive at 0) is kept |
| Activation.CountdownIgnoresLevel | Master.py:140-144 | an active latch with t ticks left is, after fewer than t polls of any levels, still active with that many fewer ticks left |
| Activation.ActiveForFiveTicks | Master.py:134-144 | a latch activated by the first of five polls is active after polls 1 to 4 and inactive after the fifth, whatever the later levels |
| Decision.TargetPump | Master.py:146-157 | a pump override always wins; otherwise in auto a level below 300 gives ON, above 700 gives OFF, and 300..700 holds the current state; manual with no override holds |
| Decision.Decide | Master.py:146-166 | after the writes the pump coil equals the target and the valve coil equals its override (or stays); no write repeats the state just read; the valve is written only with its override's value |
| Decision.ValveOnlyFromOverride | Master.py:163-166 | the valve write depends only on the valve override and the valve state, never on level, pump state or auto mode |
| Decision.Scenarios | Master.py:146-161 | auto at 250 with the pump off writes ON; auto at 750 with the pump on writes OFF; auto at 450 writes nothing; an ON override at 900 writes nothing |
| Master.Iterate | Master.py:64-166 | the key is applied first; a test frame whose send and drain complete (`skip_next_poll` set) skips exactly this poll; a failed read, a register response with no register, or fewer than two coil bits stops the loop with no write and no latch change; otherwise the latch steps on the polled level (register 0 of the response) and the writes are the decision on the polled level and coils; the loop continues iff not exiting and not stopped; the control and latch invariants are kept |
| Master.LatchDoesNotAffectWrites | Master.py:134-166 | two iterations differing only in latch state issue the same writes and agree on continuing |
| Master.QuitStillPolls | Master.py:59-166 | the iteration in which `q` is pressed still polls and acts, and the loop then ends |
| Probe.Encode | Master.py:94 | the frame is 12 bytes, its length field counts the 6 bytes after it, and byte 7 is function code 0x03 |
| Probe.Decode | Master.py:94 | a decoded frame is a well-formed 12-byte Read Holding Registers request whose length field counts the bytes after it |
| Probe.DecodeEncode | Master.py:94 | decoding an encoded well-formed request gives the request back |
| Probe.EncodeDecode | Master.py:94 | encoding a decoded frame gives the original bytes back |
| Probe.TestFrameDecodes | Master.py:94 | the test frame is transaction 0, protocol 0, length 6, unit 1, function 0x03, start 0, count 1, and encoding that request yields the frame |
| Plant.Step | Master.py:120-166 | the simulator never changes coils or controller state; the controller never changes registers; the iteration that completed the test frame changes neither store nor latch; once the controller has stopped its events change nothing; the plant invariant is kept |
| Plant.InitialInv | Master.py:31-39 | the scripts' starting state (auto control on, no overrides and an inactive latch at 0 as Master.py:31-39 sets them, with the store of Slave.py:17-22: level 500, coils off) meets the plant invariant, so `RunPreservesInv` applies to every run of the program |
| Plant.RunPreservesInv | Slave.py:69-72 | under every interleaving of simulator ticks and controller iterations the store keeps its shape, the level stays in [0, 1000], auto never coexists with a pump override, and the latch invariant holds |
| Plant.StoppedControllerFreezesCoils | Master.py:121-132 | after the controller loop ends, no interleaving of further events changes a coil or restarts it |
| Plant.ReadErrorStops | Master.py:121-125 | an iteration whose reads fail ends the loop and leaves the store unchanged |

## Left out

- The pymodbus TCP client, `StartTcpServer` and the datastore classes are third-party code; reads and writes are atomic operations on `RegisterStore.Store`, at the addresses the scripts name. The datastore's own address translation is not part of this model. With the library's default (non-zero-mode) slave context, address 0 of both scripts maps to block index 1, whose initial value is 0, so the deployed program would start at level 0 and first report "Tank Empty"; `Tank.FirstTickFromInitial` describes level 500, as the scripts' own text sets it.
- Socket send, the non-blocking drain of the reply and `setblocking` around the test frame: only whether `skip_next_poll` ends up set is modelled (the `probed` parameter), i.e. a socket exists and the send, the drain and both `setblocking` calls complete. A missing socket, a failed send or a drain error other than `BlockingIOError` all count as not set, and the iteration polls as usual; a drain error also leaves the socket non-blocking, which is not modelled.
- Terminal handling (termios, tty, select) and lower-casing of the key: the key arrives as an already lower-cased `Option<char>`.
- Logging, printed prompts and the per-tick state log line; only the abstract report emitted by the threshold chain is modelled.
- `time.sleep` cadence, the daemon thread and timing between the two loops: `Plant` interleaves atomic events in any order instead. A simulator tick between the controller's register read, coil read and coil writes within one iteration is not modelled.
- Device identification strings, connection bootstrap, exit codes, `KeyboardInterrupt` and the shutdown path.
- Failed coil writes: a coil write is assumed to succeed. The source ignores the result of `write_coil`, so a write answered with an error response leaves the coil unchanged and the loop goes on; a `write_coil` that raises escapes the loop (only `KeyboardInterrupt` is caught) and ends the controller script. Neither failure is modelled.

=== FILE: activation.dfy ===
/** The "Activation A" latch of Master.py: an inactive latch activates when
    the polled level lies in [500, 520]; an active latch counts one down per
    poll tick, whatever the level, and deactivates when the count reaches 0.
    The activating poll already counts down, so the latch is active after
    that poll and the next three and inactive after the fifth. The latch
    never influences a pump or valve decision. */
module Activation {

  const WindowLow: int := 500
  const WindowHigh: int := 520
  const Duration: int := 5

  datatype Latch = Latch(active: bool, timer: int)

  const Initial := Latch(false, 0)

  predicate InWindow(level: int) {
    WindowLow <= level <= WindowHigh
  }

  /** What every poll tick leaves behind. */
  predicate Inv(l: Latch) {
    (l.active && 1 <= l.timer <= Duration - 1) || (!l.active && l.timer == 0)
  }

  function LatchStep(l: Latch, level: int): (r: Latch)
    ensures Inv(l) ==> Inv(r)
    // an inactive latch activates on an in-window level, counting this tick
    ensures !l.active && InWindow(level) ==> r == Latch(true, Duration - 1)
    ensures !l.active && !InWindow(level) ==> r == l
    // an active latch counts down regardless of level
    ensures l.active ==> r.timer == l.timer - 1 && r.active == (l.timer > 1)
  {
    var l1 := if !l.active && InWindow(level) then Latch(true, Duration) else l;
    if l1.active then
      var t := l1.timer - 1;
      Latch(t > 0, t)
    else
      l1
  }

  /** The latch after polling each level in turn. */
  function LatchRun(l: Latch, levels: seq<int>): Latch
    decreases |levels|
  {
    if |levels| == 0 then l else LatchRun(LatchStep(l, levels[0]), levels[1..])
  }

  /** An active latch with `timer` ticks to go stays active, with that many
      fewer ticks to go, for up to `timer - 1` polls of any levels. */
  lemma {:induction false} CountdownIgnoresLevel(l: Latch, levels: seq<int>)
    requires l.active && |levels| < l.timer
    ensures LatchRun(l, levels) == Latch(true, l.timer - |levels|)
    decreases |levels|
  {
    if |levels| > 0 {
      CountdownIgnoresLevel(LatchStep(l, levels[0]), levels[1..]);
    }
  }

  /** Activated by an in-window level, the latch is active after the first
      four polls and inactive after the fifth, whatever the later levels. */
  lemma ActiveForFiveTicks(l: Latch, levels: seq<int>)
    requires Inv(l) && !l.active
    requires |levels| == Duration && InWindow(levels[0])
    ensures forall k :: 1 <= k < Duration ==> LatchRun(l, levels[..k]).active
    ensures !LatchRun(l, levels).active
  {
    var a := LatchStep(l, levels[0]);
    assert a == Latch(true, Duration - 1);
    forall k | 1 <= k < Duration
      ensures LatchRun(l, levels[..k]).active
    {
      assert levels[..k][1..] == levels[1..k];
      CountdownIgnoresLevel(a, levels[1..k]);
    }
    var b := LatchRun(a, levels[1..4]);
    CountdownIgnoresLevel(a, levels[1..4]);
    assert b == Latch(true, 1);
    assert levels[1..] == levels[1..4] + [levels[4]];
    RunAppend(a, levels[1..4], [levels[4]]);
  }

  lemma {:induction false} RunAppend(l: Latch, xs: seq<int>, ys: seq<int>)
    ensures LatchRun(l, xs + ys) == LatchRun(LatchRun(l, xs), ys)
    decreases |xs|
  {
    if |xs| == 0 {
      assert xs + ys == ys;
    } else {
      assert (xs + ys)[1..] == xs[1..] + ys;
      RunAppend(LatchStep(l, xs[0]), xs[1..], ys);
    }
  }
}

=== FILE: commands.dfy ===
/** The operator's single-key commands in Master.py, applied to the control
    flags. The key is the character already lower-cased by the terminal
    reader; every key other than q, a, p, v, f and d leaves the flags as they
    are (the 't' key acts on the connection, not on these flags). */
module Commands {
  import opened Wrappers

  /** `auto_control`, `pump_override`, `valve_override` and `exit_flag`. */
  datatype ControlState = ControlState(
    auto: bool,
    pumpOverride: Option<bool>,
    valveOverride: Option<bool>,
    exit: bool)

  /** Auto control on, no overrides, not exiting. */
  const Initial := ControlState(true, None, None, false)

  /** Auto control and a pump override never coexist. */
  predicate Inv(c: ControlState) {
    c.auto ==> c.pumpOverride == None
  }

  /** `not o if o is not None else True` */
  function Cycle(o: Option<bool>): Option<bool> {
    if o.Some? then Some(!o.value) else Some(true)
  }

  function ApplyKey(c: ControlState, key: char): (r: ControlState)
    // quitting only raises the exit flag
    ensures key == 'q' ==> r == c.(exit := true)
    ensures key != 'q' ==> r.exit == c.exit
    // 'a' toggles auto; turning it on drops the pump override
    ensures key == 'a' ==> r.auto == !c.auto && r.valveOverride == c.valveOverride
    ensures key == 'a' ==> r.pumpOverride == if r.auto then None else c.pumpOverride
    // 'p' and 'v': the override becomes ON unless it was ON (None -> ON -> OFF -> ON)
    ensures key == 'p' ==> !r.auto && r.pumpOverride == Some(c.pumpOverride != Some(true)) && r.valveOverride == c.valveOverride
    ensures key == 'v' ==> r.valveOverride == Some(c.valveOverride != Some(true)) && r.auto == c.auto && r.pumpOverride == c.pumpOverride
    // force fill and force drain
    ensures key == 'f' ==> !r.auto && r.pumpOverride == Some(true) && r.valveOverride == Some(false)
    ensures key == 'd' ==> !r.auto && r.pumpOverride == Some(false) && r.valveOverride == Some(true)
    ensures key !in "qapvfd" ==> r == c
    // invariants every command keeps
    ensures Inv(c) ==> Inv(r)
    ensures c.valveOverride.Some? ==> r.valveOverride.Some?
  {
    match key
    case 'q' => c.(exit := true)
    case 'a' =>
      var auto := !c.auto;
      c.(auto := auto, pumpOverride := if auto then None else c.pumpOverride)
    case 'p' => c.(auto := false, pumpOverride := Cycle(c.pumpOverride))
    case 'v' => c.(valveOverride := Cycle(c.valveOverride))
    case 'f' => c.(auto := false, pumpOverride := Some(true), valveOverride := Some(false))
    case 'd' => c.(auto := false, pumpOverride := Some(false), valveOverride := Some(true))
    case _ => c
  }

  /** The flags after a sequence of key presses. */
  function ApplyKeys(c: ControlState, keys: seq<char>): ControlState
    decreases |keys|
  {
    if |keys| == 0 then c else ApplyKeys(ApplyKey(c, keys[0]), keys[1..])
  }

  /** From any state satisfying the invariant (the initial one does), no
      sequence of commands produces auto control with a pump override. */
  lemma {:induction false} KeysPreserveInv(c: ControlState, keys: seq<char>)
    requires Inv(c)
    ensures Inv(ApplyKeys(c, keys))
    decreases |keys|
  {
    if |keys| > 0 {
      KeysPreserveInv(ApplyKey(c, keys[0]), keys[1..]);
    }
  }

  /** Once a valve override is set, no sequence of commands clears it. */
  lemma {:induction false} ValveOverrideSticks(c: ControlState, keys: seq<char>)
    requires c.valveOverride.Some?
    ensures ApplyKeys(c, keys).valveOverride.Some?
    decreases |keys|
  {
    if |keys| > 0 {
      ValveOverrideSticks(ApplyKey(c, keys[0]), keys[1..]);
    }
  }

  /** Pressing 'p' twice returns a set pump override to its value. */
  lemma PumpOverrideTogglesBack(c: ControlState)
    requires c.pumpOverride.Some?
    ensures ApplyKeys(c, "pp").pumpOverride == c.pumpOverride
  {
  }

  /** Pressing 'v' twice returns a set valve override to its value. */
  lemma ValveOverrideTogglesBack(c: ControlState)
    requires c.valveOverride.Some?
    ensures ApplyKeys(c, "vv").valveOverride == c.valveOverride
  {
  }
}

=== FILE: decision.dfy ===
/** The pump and valve decision of one poll tick in Master.py: an override
    always wins; otherwise auto control runs a bang-bang policy with a
    hysteresis band [300, 700]; manual mode holds. The valve is driven by its
    override alone. A coil is written only when its target differs from the
    state just read. */
module Decision {
  import opened Wrappers
  import opened Commands

  const LowLevel: int := 300
  const HighLevel: int := 700

  /** The optional `write_coil(0, _)` and `write_coil(1, _)` of a tick. */
  datatype CoilWrites = CoilWrites(pump: Option<bool>, valve: Option<bool>)

  const NoWrites := CoilWrites(None, None)

  function TargetPump(level: int, pumpState: bool, c: ControlState): (r: bool)
    ensures c.pumpOverride.Some? ==> r == c.pumpOverride.value
    ensures c.pumpOverride.None? && c.auto && level < LowLevel ==> r
    ensures c.pumpOverride.None? && c.auto && level > HighLevel ==> !r
    ensures c.pumpOverride.None? && (!c.auto || LowLevel <= level <= HighLevel) ==> r == pumpState
  {
    if c.pumpOverride.Some? then c.pumpOverride.value
    else if c.auto then
      if level < LowLevel then true
      else if level > HighLevel then false
      else pumpState
    else pumpState
  }

  /** A coil after an optional write. */
  function After(state: bool, write: Option<bool>): bool {
    write.GetOr(state)
  }

  function Decide(level: int, pumpState: bool, valveState: bool, c: ControlState): (w: CoilWrites)
    // after the writes the pump is at its target and the valve at its override
    ensures After(pumpState, w.pump) == TargetPump(level, pumpState, c)
    ensures After(valveState, w.valve) == c.valveOverride.GetOr(valveState)
    // and no write repeats the state just read
    ensures w.pump.Some? ==> w.pump.value != pumpState
    ensures w.valve.Some? ==> w.valve.value != valveState
    // the valve is written only from its override
    ensures w.valve.Some? ==> w.valve == c.valveOverride
  {
    var target := TargetPump(level, pumpState, c);
    CoilWrites(
      if target != pumpState then Some(target) else None,
      if c.valveOverride.Some? && c.valveOverride.value != valveState then c.valveOverride else None)
  }

  /** Neither the level, the pump state nor auto mode ever affects the valve
      write. */
  lemma ValveOnlyFromOverride(l1: int, l2: int, p1: bool, p2: bool, valveState: bool, c1: ControlState, c2: ControlState)
    requires c1.valveOverride == c2.valveOverride
    ensures Decide(l1, p1, valveState, c1).valve == Decide(l2, p2, valveState, c2).valve
  {
  }

  /** Four concrete decisions: auto at 250 with the pump off switches it
      on; auto at 750 with the pump on switches it off; auto at 450 holds; an
      ON override keeps the pump on at 900. */
  lemma Scenarios()
    ensures Decide(250, false, false, Initial).pump == Some(true)
    ensures Decide(750, true, false, Initial).pump == Some(false)
    ensures Decide(450, true, false, Initial).pump == None
    ensures Decide(900, true, false, ApplyKey(Initial, 'p')).pump == None
  {
  }
}

=== FILE: master.dfy ===
/** One iteration of the controller loop in Master.py: handle at most one
    key, skip the poll once the test frame has been sent and its reply
    drained, otherwise poll
    the level and coils, stop on a failed, empty or short read, advance the
    Activation-A latch and issue the pump and valve coil writes. */
module Master {
  import opened Wrappers
  import Commands
  import Activation
  import opened Decision

  datatype MasterState = MasterState(control: Commands.ControlState, latch: Activation.Latch)

  const Initial := MasterState(Commands.Initial, Activation.Initial)

  predicate Inv(s: MasterState) {
    Commands.Inv(s.control) && Activation.Inv(s.latch)
  }

  /** The result of `read_holding_registers(0, 1)` and `read_coils(0, 2)`:
      an error (either read failed or answered with an exception), or the
      registers and the coil bits returned. */
  datatype Poll = ReadError | Reading(registers: seq<int>, bits: seq<bool>)

  /** A reading the loop can use: a level register and two coil bits.
      Anything less raises `IndexError` at Master.py, which ends the loop
      either through the `break` after the coil bits or, for an empty
      register list, by escaping the loop altogether. */
  predicate Usable(poll: Poll) {
    poll.Reading? && |poll.registers| >= 1 && |poll.bits| >= 2
  }

  /** Skipped: `skip_next_poll` was set by the test frame and this tick does
      not poll.
      Stopped: the read failed, returned no register or fewer than two
      coil bits.
      Acted: the tick polled `level` and issued `writes`. */
  datatype Outcome = Skipped | Stopped | Acted(level: int, writes: CoilWrites)

  /** `continues` is false when the loop ends after this iteration. */
  datatype Iteration = Iteration(state: MasterState, outcome: Outcome, continues: bool)

  /** The flags after the key of this iteration, if one was pressed. */
  function KeyEffect(c: Commands.ControlState, key: Option<char>): Commands.ControlState {
    if key.Some? then Commands.ApplyKey(c, key.value) else c
  }

  /** `key` is the lower-cased key read this iteration; `probed` whether,
      were the test frame requested, `skip_next_poll` would be set: a socket
      exists and the send, the drain of the reply and both `setblocking`
      calls complete without an exception; `poll` what the reads return
      if the iteration gets to them. */
  function Iterate(s: MasterState, key: Option<char>, probed: bool, poll: Poll): (r: Iteration)
    ensures r.state.control == KeyEffect(s.control, key)
    // a completed test frame suppresses exactly this iteration's poll
    ensures r.outcome.Skipped? <==> key == Some('t') && probed
    // fail-stop on a failed or short read, with no write
    ensures r.outcome.Stopped? <==> !(key == Some('t') && probed) && !Usable(poll)
    ensures r.continues <==> !r.state.control.exit && !r.outcome.Stopped?
    // the latch moves only on a tick that polled
    ensures !r.outcome.Acted? ==> r.state.latch == s.latch
    ensures r.outcome.Acted? ==> Usable(poll) && r.outcome.level == poll.registers[0]
    ensures r.outcome.Acted? ==> r.state.latch == Activation.LatchStep(s.latch, poll.registers[0])
    ensures r.outcome.Acted? ==>
      r.outcome.writes == Decide(poll.registers[0], poll.bits[0], poll.bits[1], r.state.control)
    ensures Inv(s) ==> Inv(r.state)
  {
    var control := KeyEffect(s.control, key);
    if key == Some('t') && probed then
      Iteration(s.(control := control), Skipped, !control.exit)
    else if !Usable(poll) then
      Iteration(s.(control := control), Stopped, false)
    else
      var level := poll.registers[0];
      var latch := Activation.LatchStep(s.latch, level);
      var writes := Decide(level, poll.bits[0], poll.bits[1], control);
      Iteration(MasterState(control, latch), Acted(level, writes), !control.exit)
  }

  /** The latch never influences what an iteration does to the coils or
      whether the loop goes on. */
  lemma LatchDoesNotAffectWrites(c: Commands.ControlState, l1: Activation.Latch, l2: Activation.Latch,
                                 key: Option<char>, probed: bool, poll: Poll)
    ensures Iterate(MasterState(c, l1), key, probed, poll).outcome == Iterate(MasterState(c, l2), key, probed, poll).outcome
    ensures Iterate(MasterState(c, l1), key, probed, poll).continues == Iterate(MasterState(c, l2), key, probed, poll).continues
  {
  }

  /** Pressing 'q' ends the loop after the current iteration, which still
      polls and acts. */
  lemma QuitStillPolls(s: MasterState, level: int, pump: bool, valve: bool)
    ensures var r := Iterate(s, Some('q'), false, Reading([level], [pump, valve]));
      r.outcome.Acted? && !r.continues
  {
  }
}

=== FILE: plant.dfy ===
/** The two scripts running together: the simulator's tick and the
    controller's iteration interleaved in any order over the one shared
    store. Each event is atomic; the controller reads coils 0 and 1 and
    register 0 from the store and writes its coil decisions back to it. */
module Plant {
  import opened Wrappers
  import opened RegisterStore
  import Tank
  import Decision
  import Master

  datatype Plant = Plant(
    store: Store,
    tankLast: Option<Tank.Threshold>,
    master: Master.MasterState,
    masterRunning: bool)

  /** TankTick: one simulator tick. MasterTick: one controller iteration with
      the given key, whether the test frame would complete (`skip_next_poll`
      set) and whether both reads succeed. */
  datatype Event =
    | TankTick
    | MasterTick(key: Option<char>, probed: bool, readOk: bool)

  const Initial := Plant(RegisterStore.Initial(), None, Master.Initial, true)

  predicate Inv(p: Plant) {
    && WellFormed(p.store)
    && Tank.MinLevel <= p.store.registers[LevelRegister] <= Tank.MaxLevel
    && Master.Inv(p.master)
  }

  /** A coil write, if one is issued. */
  function WriteIf(s: Store, index: nat, w: Option<bool>): (r: Store)
    requires index < |s.coils|
    ensures r.registers == s.registers && |r.coils| == |s.coils|
    ensures forall i :: 0 <= i < |s.coils| && i != index ==> r.coils[i] == s.coils[i]
    ensures r.coils[index] == Decision.After(s.coils[index], w)
  {
    if w.Some? then WriteCoil(s, index, w.value) else s
  }

  function Step(p: Plant, e: Event): (r: Plant)
    requires WellFormed(p.store)
    ensures WellFormed(r.store)
    ensures Inv(p) ==> Inv(r)
    // the simulator never touches the coils or the controller's state
    ensures e.TankTick? ==> r.store.coils == p.store.coils && r.master == p.master && r.masterRunning == p.masterRunning
    // the controller never touches the registers
    ensures e.MasterTick? ==> r.store.registers == p.store.registers && r.tankLast == p.tankLast
    // the iteration that completed the test frame reads, decides and writes nothing
    ensures e.MasterTick? && e.key == Some('t') && e.probed ==> r.store == p.store && r.master.latch == p.master.latch
    // once the controller loop has ended, its events change nothing
    ensures e.MasterTick? && !p.masterRunning ==> r == p
    ensures !p.masterRunning ==> !r.masterRunning
  {
    match e
    case TankTick =>
      var t := Tank.SlaveTick(p.store, p.tankLast);
      p.(store := t.store, tankLast := t.last)
    case MasterTick(key, probed, readOk) =>
      if !p.masterRunning then p
      else
        var poll :=
          if readOk then Master.Reading(ReadRegisters(p.store, LevelRegister, 1), ReadCoils(p.store, PumpCoil, 2))
          else Master.ReadError;
        var it := Master.Iterate(p.master, key, probed, poll);
        var store :=
          if it.outcome.Acted? then
            WriteIf(WriteIf(p.store, PumpCoil, it.outcome.writes.pump), ValveCoil, it.outcome.writes.valve)
          else p.store;
        p.(store := store, master := it.state, masterRunning := it.continues)
  }

  function Run(p: Plant, es: seq<Event>): Plant
    requires WellFormed(p.store)
    decreases |es|
  {
    if |es| == 0 then p else Run(Step(p, es[0]), es[1..])
  }

  /** Under every interleaving the store keeps its shape, the level stays in
      [0, 1000], auto control never coexists with a pump override, and the
      latch is either active with 1..4 ticks to go or inactive at 0. */
  lemma {:induction false} RunPreservesInv(p: Plant, es: seq<Event>)
    requires Inv(p)
    ensures Inv(Run(p, es))
    decreases |es|
  {
    if |es| > 0 {
      RunPreservesInv(Step(p, es[0]), es[1..]);
    }
  }

  /** Both scripts start in a state the invariant covers: level 500, coils
      off, auto control on, no overrides, inactive latch at 0. */
  lemma InitialInv()
    ensures Inv(Initial)
  {
  }

  /** After the controller stops (quit or fail-stop), no interleaving of
      further events ever changes a coil again. */
  lemma {:induction false} StoppedControllerFreezesCoils(p: Plant, es: seq<Event>)
    requires WellFormed(p.store) && !p.masterRunning
    ensures Run(p, es).store.coils == p.store.coils
    ensures !Run(p, es).masterRunning
    decreases |es|
  {
    if |es| > 0 {
      StoppedControllerFreezesCoils(Step(p, es[0]), es[1..]);
    }
  }

  /** A controller iteration whose reads fail stops the loop without writing
      a coil. */
  lemma ReadErrorStops(p: Plant, key: Option<char>, probed: bool)
    requires WellFormed(p.store) && p.masterRunning && !(key == Some('t') && probed)
    ensures var r := Step(p, MasterTick(key, probed, false));
      !r.masterRunning && r.store == p.store
  {
  }
}

=== FILE: probe.dfy ===
/** The 12-byte diagnostic frame Master.py sends on the 't' key: a MODBUS
    TCP application data unit, i.e. the MBAP header of section 3.1.3 of the
    MODBUS Messaging on TCP/IP Implementation Guide V1.0b followed by a Read
    Holding Registers request (function code 0x03, section 6.3 of the MODBUS
    Application Protocol Specification V1.1b3). Multi-byte fields are
    big-endian. */
module Probe {
  import opened Wrappers

  newtype byte = x: int | 0 <= x < 256

  const ReadHoldingRegisters: int := 0x03
  const ModbusProtocol: int := 0
  /** Unit identifier, function code, start address and quantity. */
  const RequestLength: int := 6
  /** Section 6.3: 1 to 125 registers per request. */
  const MaxQuantity: int := 0x7D

  datatype Request = Request(
    transactionId: int,
    protocolId: int,
    length: int,
    unitId: int,
    functionCode: int,
    startAddress: int,
    quantity: int)

  predicate IsU16(x: int) { 0 <= x < 0x1_0000 }

  predicate WellFormed(q: Request) {
    && IsU16(q.transactionId)
    && q.protocolId == ModbusProtocol
    && q.length == RequestLength
    && 0 <= q.unitId < 256
    && q.functionCode == ReadHoldingRegisters
    && IsU16(q.startAddress)
    && 1 <= q.quantity <= MaxQuantity
  }

  function U16(x: int): (r: seq<byte>)
    requires IsU16(x)
    ensures |r| == 2
  {
    [(x / 256) as byte, (x % 256) as byte]
  }

  function BigEndian(hi: byte, lo: byte): (r: int)
    ensures IsU16(r)
  {
    hi as int * 256 + lo as int
  }

  function Encode(q: Request): (r: seq<byte>)
    requires WellFormed(q)
    ensures |r| == 12
    // the length field counts the bytes that follow it
    ensures BigEndian(r[4], r[5]) == |r| - 6
    ensures r[7] as int == ReadHoldingRegisters
  {
    U16(q.transactionId) + U16(q.protocolId) + U16(q.length)
      + [q.unitId as byte, q.functionCode as byte]
      + U16(q.startAddress) + U16(q.quantity)
  }

  /** Parses a frame as a Read Holding Registers request; None for any other
      length, protocol, length field, function code or quantity. */
  function Decode(b: seq<byte>): (r: Option<Request>)
    ensures r.Some? ==> WellFormed(r.value) && |b| == 12
    ensures r.Some? ==> r.value.length == |b| - 6
  {
    if |b| != 12 then None
    else
      var q := Request(
        BigEndian(b[0], b[1]), BigEndian(b[2], b[3]), BigEndian(b[4], b[5]),
        b[6] as int, b[7] as int,
        BigEndian(b[8], b[9]), BigEndian(b[10], b[11]));
      if WellFormed(q) then Some(q) else None
  }

  /** Every well-formed request survives encoding and decoding. */
  lemma DecodeEncode(q: Request)
    requires WellFormed(q)
    ensures Decode(Encode(q)) == Some(q)
  {
  }

  /** A frame that decodes is exactly the encoding of what it decodes to. */
  lemma EncodeDecode(b: seq<byte>)
    requires Decode(b).Some?
    ensures Encode(Decode(b).value) == b
  {
  }

  /** `00 00 00 00 00 06 01 03 00 00 00 01` */
  const TestFrame: seq<byte> := [0x00, 0x00, 0x00, 0x00, 0x00, 0x06, 0x01, 0x03, 0x00, 0x00, 0x00, 0x01]

  /** The test frame is transaction 0 of protocol 0, length 6, unit 1,
      reading one holding register from address 0. */
  lemma TestFrameDecodes()
    ensures Decode(TestFrame) == Some(Request(0, 0, 6, 1, ReadHoldingRegisters, 0, 1))
    ensures Encode(Request(0, 0, 6, 1, ReadHoldingRegisters, 0, 1)) == TestFrame
  {
  }
}

=== FILE: store.dfy ===
/** The slave's shared Modbus data store: 20 coils (actuators) and 20 holding
    registers (sensors), created once when the simulator starts. Every read
    and write is one atomic operation; an out-of-range address is a
    programming error, so the operations require it away. */
module RegisterStore {

  const CoilCount: nat := 20
  const RegisterCount: nat := 20

  /** Coil 0 drives the pump, coil 1 the drain valve. */
  const PumpCoil: nat := 0
  const ValveCoil: nat := 1
  /** Holding register 0 holds the tank level. */
  const LevelRegister: nat := 0

  const InitialLevel: int := 500

  datatype Store = Store(coils: seq<bool>, registers: seq<int>)

  predicate WellFormed(s: Store) {
    |s.coils| == CoilCount && |s.registers| == RegisterCount
  }

  /** All coils off, register 0 at 500, every other register 0. */
  function Initial(): (s: Store)
    ensures WellFormed(s)
    ensures s.registers[LevelRegister] == InitialLevel
    ensures forall i :: 0 <= i < |s.coils| ==> !s.coils[i]
    ensures forall i :: 0 < i < |s.registers| ==> s.registers[i] == 0
  {
    Store(seq(CoilCount, _ => false), [InitialLevel] + seq(RegisterCount - 1, _ => 0))
  }

  function ReadCoils(s: Store, start: nat, count: nat): (r: seq<bool>)
    requires start + count <= |s.coils|
    ensures |r| == count
    ensures forall i :: 0 <= i < count ==> r[i] == s.coils[start + i]
  {
    s.coils[start..start + count]
  }

  function ReadRegisters(s: Store, start: nat, count: nat): (r: seq<int>)
    requires start + count <= |s.registers|
    ensures |r| == count
    ensures forall i :: 0 <= i < count ==> r[i] == s.registers[start + i]
  {
    s.registers[start..start + count]
  }

  function WriteCoil(s: Store, index: nat, value: bool): (r: Store)
    requires index < |s.coils|
    ensures |r.coils| == |s.coils| && r.registers == s.registers
    ensures r.coils[index] == value
    ensures forall i :: 0 <= i < |s.coils| && i != index ==> r.coils[i] == s.coils[i]
  {
    s.(coils := s.coils[index := value])
  }

  function WriteRegister(s: Store, index: nat, value: int): (r: Store)
    requires index < |s.registers|
    ensures |r.registers| == |s.registers| && r.coils == s.coils
    ensures r.registers[index] == value
    ensures forall i :: 0 <= i < |s.registers| && i != index ==> r.registers[i] == s.registers[i]
  {
    s.(registers := s.registers[index := value])
  }
}

=== FILE: tank.dfy ===
/** One iteration of the simulator loop in Slave.py: read the pump and valve
    coils and the level register, move the level by the pump and drain rates,
    clamp it to [0, 1000], write it back, and emit at most one threshold
    report through the `if/elif` chain guarded by `last_report`. */
module Tank {
  import opened Wrappers
  import opened RegisterStore

  const MinLevel: int := 0
  const MaxLevel: int := 1000
  const PumpRate: int := 5
  const DrainRate: int := 3
  /** `MAX_LEVEL // 2` */
  const HalfLevel: int := MaxLevel / 2

  /** The three reports; `last_report` is an `Option<Threshold>`, None being
      Python's `None`. */
  datatype Threshold = Empty | HalfFull | Full

  /** The level at which a threshold is reported. */
  function ThresholdLevel(t: Threshold): int {
    match t
    case Empty => MinLevel
    case HalfFull => HalfLevel
    case Full => MaxLevel
  }

  /** The level change of one tick: +5 for the pump, -3 for the valve. */
  function Delta(pump: bool, valve: bool): (r: int)
    ensures r == 0 <==> !pump && !valve
    ensures r > 0 <==> pump
    ensures r < 0 <==> !pump && valve
    ensures pump && valve ==> r == PumpRate - DrainRate
    ensures pump && !valve ==> r == PumpRate
    ensures !pump && valve ==> r == -DrainRate
    ensures -DrainRate <= r <= PumpRate
  {
    (if pump then PumpRate else 0) - (if valve then DrainRate else 0)
  }

  /** `max(MIN_LEVEL, min(MAX_LEVEL, x))` */
  function Clamp(x: int): (r: int)
    ensures MinLevel <= r <= MaxLevel
    ensures MinLevel <= x <= MaxLevel ==> r == x
    ensures x < MinLevel ==> r == MinLevel
    ensures x > MaxLevel ==> r == MaxLevel
  {
    if x < MinLevel then MinLevel else if x > MaxLevel then MaxLevel else x
  }

  /** `level` is the new level, `last` the new `last_report`, `emitted` the
      report logged in this tick, if any. */
  datatype TickResult = TickResult(level: int, last: Option<Threshold>, emitted: Option<Threshold>)

  /** The threshold chain, branch for branch in the source's order. */
  function Report(newLevel: int, last: Option<Threshold>): (r: TickResult)
    requires MinLevel <= newLevel <= MaxLevel
    ensures r.level == newLevel
    // a report is emitted exactly when last_report changes to a threshold
    ensures r.emitted.Some? <==> r.last.Some? && r.last != last
    ensures r.emitted.Some? ==> r.last == r.emitted && ThresholdLevel(r.emitted.value) == newLevel
    // what last_report becomes, by level
    ensures newLevel == MinLevel ==> r.last == Some(Empty)
    ensures newLevel == MaxLevel ==> r.last == Some(Full)
    ensures newLevel == HalfLevel ==> r.last == (if last == Some(HalfFull) then None else Some(HalfFull))
    ensures MinLevel < newLevel < MaxLevel && newLevel != HalfLevel ==> r.last == None
  {
    if newLevel == MinLevel && last != Some(Empty) then
      TickResult(newLevel, Some(Empty), Some(Empty))
    else if newLevel == HalfLevel && last != Some(HalfFull) then
      TickResult(newLevel, Some(HalfFull), Some(HalfFull))
    else if newLevel == MaxLevel && last != Some(Full) then
      TickResult(newLevel, Some(Full), Some(Full))
    else if MinLevel < newLevel < MaxLevel then
      TickResult(newLevel, None, None)
    else
      TickResult(newLevel, last, None)
  }

  /** The level update and the threshold chain of one simulator tick. */
  function TankStep(level: int, pump: bool, valve: bool, last: Option<Threshold>): (r: TickResult)
    ensures MinLevel <= r.level <= MaxLevel
    ensures r.level == Clamp(level + Delta(pump, valve))
    // both actuators off: a stored level does not move
    ensures !pump && !valve && MinLevel <= level <= MaxLevel ==> r.level == level
    // both on: the level rises by 2 until it is clamped at the top
    ensures pump && valve && MinLevel <= level <= MaxLevel - 2 ==> r.level == level + 2
    ensures pump && valve && MaxLevel - 2 < level ==> r.level == MaxLevel
    ensures pump && !valve && MinLevel <= level ==> r.level == if level + PumpRate > MaxLevel then MaxLevel else level + PumpRate
    ensures !pump && valve && level <= MaxLevel ==> r.level == if level - DrainRate < MinLevel then MinLevel else level - DrainRate
    ensures r.emitted.Some? <==> r.last.Some? && r.last != last
    ensures r.emitted.Some? ==> r.last == r.emitted && ThresholdLevel(r.emitted.value) == r.level
  {
    Report(Clamp(level + Delta(pump, valve)), last)
  }

  datatype SlaveResult = SlaveResult(store: Store, last: Option<Threshold>, emitted: Option<Threshold>)

  /** One tick against the store: reads coils 0 and 1 and register 0, writes
      only register 0. */
  function SlaveTick(s: Store, last: Option<Threshold>): (r: SlaveResult)
    requires WellFormed(s)
    ensures WellFormed(r.store)
    ensures r.store.coils == s.coils
    ensures MinLevel <= r.store.registers[LevelRegister] <= MaxLevel
    ensures forall i :: 0 <= i < |s.registers| && i != LevelRegister ==> r.store.registers[i] == s.registers[i]
    ensures r.store.registers[LevelRegister]
         == Clamp(s.registers[LevelRegister] + Delta(s.coils[PumpCoil], s.coils[ValveCoil]))
  {
    var coils := ReadCoils(s, PumpCoil, 2);
    var level := s.registers[LevelRegister];
    var t := TankStep(level, coils[0], coils[1], last);
    SlaveResult(WriteRegister(s, LevelRegister, t.level), t.last, t.emitted)
  }

  /** The reports of `n` consecutive ticks with the actuators held fixed. */
  function Emissions(level: int, pump: bool, valve: bool, last: Option<Threshold>, n: nat): (r: seq<Option<Threshold>>)
    ensures |r| == n
    ensures n > 0 ==> r[0] == TankStep(level, pump, valve, last).emitted
    decreases n
  {
    if n == 0 then []
    else
      var t := TankStep(level, pump, valve, last);
      [t.emitted] + Emissions(t.level, pump, valve, t.last, n - 1)
  }

  /** The actuators hold a boundary level in place. */
  predicate HoldsBoundary(level: int, pump: bool, valve: bool) {
    (level == MinLevel && !pump) || (level == MaxLevel && pump)
  }

  /** Sitting at 0 (pump off) or at 1000 (pump on) for any number of ticks
      emits "Tank Empty" / "Tank Full" at most once, on the first tick, and
      only if it was not already the last report. */
  lemma {:induction false} BoundaryReportedOnce(level: int, pump: bool, valve: bool, last: Option<Threshold>, n: nat)
    requires HoldsBoundary(level, pump, valve)
    ensures var tag := if level == MinLevel then Empty else Full;
      forall k :: 0 <= k < n ==>
        Emissions(level, pump, valve, last, n)[k] == (if k == 0 && last != Some(tag) then Some(tag) else None)
    decreases n
  {
    var tag := if level == MinLevel then Empty else Full;
    if n > 0 {
      var t := TankStep(level, pump, valve, last);
      assert t.level == level;
      assert t.last == Some(tag);
      BoundaryReportedOnce(level, pump, valve, t.last, n - 1);
      var e := Emissions(level, pump, valve, last, n);
      assert e == [t.emitted] + Emissions(level, pump, valve, t.last, n - 1);
      forall k | 0 <= k < n
        ensures e[k] == (if k == 0 && last != Some(tag) then Some(tag) else None)
      {
        if k > 0 {
          assert e[k] == Emissions(level, pump, valve, t.last, n - 1)[k - 1];
        }
      }
    }
  }

  /** At level 500 with both actuators off, the `half` branch is skipped
      whenever `last_report` is already `half`, and the reset branch then
      clears it: "Tank Half Full" is emitted on every other tick. */
  lemma {:induction false} HalfFullAlternates(last: Option<Threshold>, n: nat)
    ensures forall k :: 0 <= k < n ==>
      Emissions(HalfLevel, false, false, last, n)[k]
        == (if (k % 2 == 0) == (last != Some(HalfFull)) then Some(HalfFull) else None)
    decreases n
  {
    if n > 0 {
      var t := TankStep(HalfLevel, false, false, last);
      assert t.level == HalfLevel;
      HalfFullAlternates(t.last, n - 1);
      var e := Emissions(HalfLevel, false, false, last, n);
      assert e == [t.emitted] + Emissions(HalfLevel, false, false, t.last, n - 1);
      forall k | 0 <= k < n
        ensures e[k] == (if (k % 2 == 0) == (last != Some(HalfFull)) then Some(HalfFull) else None)
      {
        if k > 0 {
          assert e[k] == Emissions(HalfLevel, false, false, t.last, n - 1)[k - 1];
          assert (t.last != Some(HalfFull)) == (last == Some(HalfFull));
          assert ((k - 1) % 2 == 0) == (k % 2 != 0);
        }
      }
    }
  }

  /** From the initial store and `last_report = None`, the first tick keeps
      the level at 500 and emits "Tank Half Full". */
  lemma FirstTickFromInitial()
    ensures var r := SlaveTick(Initial(), None);
      r.store.registers[LevelRegister] == InitialLevel && r.emitted == Some(HalfFull) && r.last == Some(HalfFull)
  {
  }
}

=== FILE: wrappers.dfy ===
/** The optional value used for Python's `None`-or-value variables
    (`pump_override`, `valve_override`, `last_report`) and for coil writes
    that may or may not be issued. */
module Wrappers {

  datatype Option<+T> = None | Some(value: T) {

    /** The carried value, falling back to `default` for None. */
    function GetOr(default: T): (r: T)
      ensures Some? ==> r == value
      ensures None? ==> r == default
    {
      match this
      case Some(v) => v
      case None => default
    }
  }
}
